=== FILE: README.md ===
# Audio-reactive visualiser: control mapper and sample accumulator in Dafny

This project models the repository's own logic in its two visualisations.

**Radial mixer (`src/bar.js`).** A control point lives in a disk of radius
`innerRadius / 2 = 60` around the centre. The user moves it by dragging. While
playback runs it follows a noise walk shifted by a persistent drag offset.
Each track's level in decibels comes from the distance between the control
point and that track's anchor on the inner circle. Levels run from 0 dB at
twice the control radius down to -60 dB at three times it. Every tick also
rebuilds two data sets. One holds two half-meter rows per track for the
stacked bars. The other holds one row per waveform sample for the radial lines.

**Area history (`src/area.js`).** Every tick, each started player's analyser
vector is tagged and appended to an ever-growing dataset. Each row carries its
position, its value and the burst name `${track}-${randomId}`. The keys
a/s/d/f start players 0–3. Colours are keyed by the track part of the name. In
spectrum mode the colours are sampled from a ramp at `(i + 1) / (n + 1)`.

Modules, one per component:

- `Geometry` (geometry.dfy): points, the disk clamp and the linear remap.
- `ControlMapper` (control.dfy): the drag machine, the walk step, play/stop and the gain.
- `BarData` (bar_data.dfy): the volume and waveform rows, and the stroke of a trace.
- `SeriesNames` (names.dfy): burst names and colour keys.
- `Sampler` (sampler.dfy): the sampling loop.
- `KeyDispatch` (keys.dfy): keyboard dispatch.
- `Palette` (palette.dfy): where the colour ramp is sampled.
- `AreaSession` (session.dfy): the area pipeline as a sequence of events, using the corrected handlers from "Findings".
- `Audio` (audio.dfy): player states.

Dafny has no square root. Each length the source computes with `Math.sqrt` is
passed in as a witness `d` with `d >= 0 && d * d == x * x + y * y`. Such a `d`
is unique (`Geometry.LengthUnique`).

Three facts about the source shape the model:

- The gain is computed from the Euclidean distance `Math.sqrt(dx * dx + dy * dy)` between the track's anchor and the control point (src/bar.js:288-290), not from the squared distance.
- The silence guard at src/area.js:56 is a `return`, so it ends the whole tick rather than passing over one player.
- The "c" case at src/area.js:83-86 assigns to an undeclared `state`, so it throws instead of resetting the dataset.

The last two are listed under "Findings".

## Model

| member | source | states |
|---|---|---|
| Geometry.Constrain | src/bar.js:5-13 | the result is always in the disk; a point at distance ≤ r is returned unchanged; a farther point lands exactly on the circle, collinear with the input and pointing the same way (dot product = r·d) |
| Geometry.ConstrainIdempotent | src/bar.js:5-13 | clamping an already clamped point changes nothing |
| Geometry.Remap | src/bar.js:15-17 | `map` sends inMin to outMin and inMax to outMax |
| Geometry.RemapAffine | src/bar.js:15-17 | the point a fraction t through the input range maps to the point the same fraction t through the output range |
| Geometry.RemapInverse | src/bar.js:15-17 | remapping back with the ranges swapped returns the original value |
| Geometry.RemapMonotone | src/bar.js:15-17 | with increasing ranges the remap preserves order |
| ControlMapper.DragStart | src/bar.js:161-165 | drag start enters Dragging, records the current point as the drag origin, leaves offset and point alone |
| ControlMapper.DragMove | src/bar.js:166-172 | a drag move sets the control point to the pointer clamped by `constrain`: the pointer itself within radius 60, otherwise the point on the rim along the pointer's own ray; offset, origin and mode are unchanged |
| ControlMapper.DragEnd | src/bar.js:173-177 | drag end returns to Idle and adds control − origin to the offset |
| ControlMapper.Moves | src/bar.js:166-172 | any run of drag moves keeps offset, origin and mode; after a non-empty run the point is the last pointer position clamped by `constrain` (so in the disk), and an empty run changes nothing |
| ControlMapper.GestureCommitsOnce | src/bar.js:159-177 | a whole gesture (start, moves, end) adds its net displacement to the offset exactly once; without moves the offset is unchanged |
| ControlMapper.Toggle | src/bar.js:54-62 | a click negates `isPlaying`, changes nothing else in the state, and stops every player if it was playing, otherwise starts every player |
| ControlMapper.ToggleTwice | src/bar.js:54-62 | two clicks restore the control state (the players are not part of that state) |
| ControlMapper.UpdateControl | src/bar.js:206-219 | while dragging, paused, or with every player stopped (including no players) nothing changes; otherwise count goes up by exactly 1, only the point and the count change, and the point is the walk point shifted by the offset and clamped by `constrain` (kept when within radius 60, otherwise rescaled along its own ray onto the rim) |
| ControlMapper.Attenuation | src/bar.js:291-292 | the clamped density is in [0,1]: 0 up to distance 120, 1 from distance 180 |
| ControlMapper.Gain | src/bar.js:290-293 | the level is in [-60, 0]: 0 dB up to distance 120 and -60 dB from 180 |
| ControlMapper.GainMonotone | src/bar.js:290-293 | moving away from an anchor never raises that track's attenuation or level |
| ControlMapper.GainReachesEveryLevel | src/bar.js:290-293 | every level in [-60, 0] is reached, at distance 120 + 60·(t / -60) |
| ControlMapper.UpdateVolume | src/bar.js:278-296 | one level per track, equal to that track's `Gain` of its anchor distance (so -(pd - 120) between 120 and 180); each in [-60, 0], 0 when the squared distance is ≤ 120², -60 when it is ≥ 180², and a track closer to the point is never quieter than a farther one |
| ControlMapper.CentredControlIsUnity | src/bar.js:278-294 | with the point at its initial centre, every anchor on the inner circle gets 0 dB |
| ControlMapper.RunStaysInDisk | src/bar.js:159-219 | through any sequence of presses, drags, releases, clicks and ticks the control point stays in the disk |
| ControlMapper.OffsetChangesOnlyOnRelease | src/bar.js:159-219 | any event sequence without a release leaves the offset unchanged |
| BarData.Volumes | src/bar.js:222-233 | exactly two rows per track: row 2i is (i, level 0, first read / 2) and row 2i+1 is (i, level 1, second read / 2) |
| BarData.BarHeight | src/bar.js:222-233 | a track's rows stack to the mean of its two meter reads, which is the meter value when the reads agree; an index past the last track has height 0 |
| BarData.WaveRows | src/bar.js:237 | a track contributes one row per sample: row j holds sample j as value, j as index and the track as key |
| BarData.Waveforms | src/bar.js:235-238 | the total row count is the sum of the vector lengths, every key is a track index, and the rows are in track order (all of track 0, then track 1, …), as `flatMap` emits them |
| BarData.WaveformGroups | src/bar.js:235-238 | grouping the rows by key gives back each track's vector, with key = track and index = sample position; other keys have no rows |
| BarData.Extent | src/bar.js:134 | the extent is a (least, greatest) pair, both taken from the values |
| BarData.LineStroke | src/bar.js:123-140 | width is 6 times the spread (max − min) of the trace's values, opacity = 0.75 + width/24 ≥ 0.75; a flat trace has width 0 |
| BarData.LineStrokeMonotone | src/bar.js:123-140 | a wider spread gives a stroke at least as thick and as opaque |
| SeriesNames.Digits | src/area.js:59 | the decimal text of an index is non-empty, all digits, and has no leading zero (it starts with '0' only for 0) |
| SeriesNames.ParseDigitsRoundTrip | src/area.js:59 | reading the decimal text back gives the index |
| SeriesNames.DigitsInjective | src/area.js:59 | different indices give different texts |
| SeriesNames.ColourKey | src/area.js:115 | `split("-")[0]` is a dash-free prefix of the name, followed by a dash unless it is the whole name |
| SeriesNames.ColourKeyOfName | src/area.js:115 | the colour key of `${i}-${id}` is the text of i, even when id contains dashes |
| SeriesNames.ColourKeyReadsTrack | src/area.js:115 | the colour key read as a number is the track index |
| SeriesNames.TextInjective | src/area.js:59 | distinct (track, id) pairs give distinct name texts |
| SeriesNames.ColourKeyIdentifiesTrack | src/area.js:113-126 | two names share a colour key exactly when they come from the same track |
| Sampler.Tag | src/area.js:57-61 | row j of a burst has index j and value vector[j], and the whole burst shares one name (track i, id) |
| Sampler.LoopFrom | src/area.js:50-66 | the old data is a prefix of the result; every added row belongs to a started, non-silent player t at or after the start index, carries t's burst id and holds the value at its index in t's vector; the added rows are ordered by track |
| Sampler.Loop | src/area.js:49-67 | one tick is append-only; every added row belongs to a started player t, carries t's burst id and holds the value at its index in t's vector; bursts are appended in player order |
| Sampler.LoopFromContribution | src/area.js:50-66 | from player i on, the rows of track t are exactly its burst `Tag(t, id, vector)` (so `vector.length` rows) if it is started and non-silent and no started player between i and t is silent; otherwise there are none |
| Sampler.LoopContribution | src/area.js:49-67 | per track t, the rows one tick adds are exactly t's burst (index j, value vector[j], one id) if t is started, not silent and reached by the loop (no earlier started player silent), else none; the old data stays a prefix |
| Sampler.BurstContribution | src/area.js:50-62 | a started player with signal adds its whole burst ahead of the rest of the tick, so its track's rows are that burst and every later track's rows come from the rest |
| Sampler.SkipStopped | src/area.js:50-52 | a run of stopped players adds nothing |
| Sampler.SingleStartedTrack | src/area.js:49-67 | with exactly one started, non-silent player, the tick appends exactly that player's burst, so the data grows by the vector length |
| Sampler.SilenceEndsTick | src/area.js:56 | once a started player is silent, no player from it on adds rows in that tick (`return`, not `continue`) |
| Sampler.SilentFirstTrackKeepsData | src/area.js:56 | if the first started player is silent, the tick leaves the data unchanged |
| Sampler.SingleTrackSession | src/area.js:49-67 | n ticks with one started player and non-silent vectors of length k append exactly n·k rows, all from that track |
| Sampler.FiveTicksOfOneTrack | src/area.js:49-67 | 5 ticks, 4 players, only player 0 started, 256 values each: 1280 rows, all from track 0 and none from tracks 1–3 |
| Sampler.SilentTrackHidesLaterTracks | src/area.js:56 | as written, a silent first player hides the second player's signal for the whole tick; the corrected loop keeps it |
| Sampler.LoopSkippingFrom | src/area.js:50-66 | (corrected guard) append-only; every added row belongs to a started, non-silent player t at or after the start index, carries t's burst id and holds the value at its index in t's vector; the added rows are ordered by track |
| Sampler.LoopSkipping | src/area.js:49-67 | (corrected guard) one tick is append-only; every added row belongs to a started player t, carries t's burst id and holds the value at its index in t's vector; bursts are appended in player order |
| Sampler.LoopSkippingFromContribution | src/area.js:50-66 | (corrected guard) from player i on, the rows of every started, non-silent player t are exactly its burst; other players have none |
| Sampler.LoopSkippingContribution | src/area.js:49-67 | (corrected guard) the rows a tick adds for every started, non-silent player are exactly its burst, whatever the other players read; other players add none |
| KeyDispatch.StartPlayer | src/area.js:71-82 | `players[n].start()` succeeds exactly when player n exists and then starts only that player; otherwise it throws TypeError |
| KeyDispatch.PlayerOfKey | src/area.js:70-82 | "a", "s", "d", "f" select players 0, 1, 2, 3 (both directions); any other key selects none |
| KeyDispatch.KeyDown | src/area.js:69-88 | a/s/d/f start the matching player; "c" throws ReferenceError; any other key changes nothing |
| KeyDispatch.KeyDownKeepsData | src/area.js:69-88 | as written, no key changes the dataset or the cancel player, and no key stops or removes a player |
| KeyDispatch.CancelKeyThrows | src/area.js:83-86 | as written, "c" on a non-empty dataset throws; the data survives and the cancel sound does not play |
| KeyDispatch.KeyDownIntended | src/area.js:83-86 | (corrected) "c" empties the dataset and starts the cancel player; every other key behaves as written |
| Palette.Positions | src/area.js:4-6 | n positions, all strictly inside (0, 1), strictly increasing |
| Palette.PositionsEvenlySpaced | src/area.js:4-6 | neighbouring positions are 1/(n+1) apart |
| Palette.PositionsSymmetric | src/area.js:4-6 | position i and position n−1−i sum to 1 |
| AreaSession.Step | src/area.js:49-88 | an event never changes the number of players |
| AreaSession.AppendOnlyUntilCancel | src/area.js:49-88 | until "c" is pressed, the dataset only grows and the earlier data stays a prefix |
| AreaSession.CancelEmpties | src/area.js:83-86 | (corrected) "c" leaves an empty dataset and a started cancel player, whatever the dataset held |

## Findings

| source | as written | input that shows it | evidently intended | confidence | as-written member | corrected member |
|---|---|---|---|---|---|---|
| src/area.js:83-86 | `state.data = []` reads an identifier `state` that is never declared (the dataset is the local `data`, line 38). Reading it throws ReferenceError before `cancel.start()` runs | key "c" with a non-empty dataset | `data = []; cancel.start();` | high, not executed (assumes the page defines no global named `state`) | KeyDispatch.CancelKeyThrows | KeyDispatch.KeyDownIntended |
| src/area.js:56 | a started player with an all-silent vector `return`s from `loop`, so the players after it add nothing in that tick | players 0 and 1 started; player 0 reads `[0]`, player 1 reads `[0.5]`: no row is added | skip only the silent player (`continue`) | medium, not executed | Sampler.SilentTrackHidesLaterTracks | Sampler.LoopSkippingContribution |

`AreaSession` runs the area pipeline with the corrected members. The
as-written members (`KeyDispatch.KeyDown`, `Sampler.Loop`) are still modelled
and characterised on their own.

## Left out

- Tone.js audio is not modelled. Meter, FFT and waveform reads, player states and the random burst ids are inputs. `Player`, `Meter`, `rampTo`, `Tone.loaded` and the `tracksof` polling promise are left out because they are foreign library code and asynchronous I/O.
- d3 is not modelled. This covers `d3.stack` and its offsets, `d3.index`, `d3.union`, all scales, `d3.arc`, `d3.area`, `d3.lineRadial`, the SVG path strings (`bars`, `lines`, area's `map` and `draw`), colour interpolation, and the choice between the categorical palette and the sampled ramp (src/area.js:9-10, 29). The reason is that the library code is not part of this model.
- The ordinal colour scale is left out. The model proves only that the colour key identifies the track.
- `randomNoise` (./noise.js) is not part of this model, and neither is the trigonometry behind anchor and walk positions. The walk point and the anchors are inputs.
- Each Euclidean length is an input witness, because Dafny has no square root.
- SVG/DOM creation, `updateCircle`, event-listener registration, `d3.interval` timers and `dispose` are left out. They are presentation and I/O.
- src/render.js, src/data/contributions.csv.js and src/main.js are left out. They are a static demo, an offline data export and the page bootstrap.
- Floating point is modelled as exact reals. NaN and +Infinity are not modelled. The only IEEE special value kept is the analyser's `-Infinity` (`Sampler.Sample.NegInfinity`).
- ControlMapper.DragEnd: `preX`/`preY` start as `undefined` in the source, and the model starts them at the origin. A release before any press would make the JS offset NaN. This cannot happen because d3-drag always emits "start" before "end".
- ControlMapper.UpdateControl: the walk point is an input for the current tick. Its dependence on `count / 100` through the noise function is not modelled.
- Geometry.Remap requires `inMin != inMax`. The source would produce Infinity or NaN there, and it never calls `map` with an empty range.
- BarData.Volumes: each meter is modelled as two reads. `meter.getValue()` is called twice, and Tone's meter smoothing may make the second read smaller. The model does not say how the two reads relate.
- Sampler.Row keeps a burst name as its two parts (track, id) rather than as text. `SeriesNames.TextInjective` shows that nothing is lost.
- Sampler.Loop: the `draw(map(data))` after each append is not modelled (d3 rendering).
- Sampler.Loop: vectors of any lengths are accepted. In the source, once the dataset holds bursts of two different lengths, `map(data)` (src/area.js:90-101) reads `D.get(key).value` (src/area.js:95) for a missing index and throws TypeError, losing the rest of the tick. Every analyser is built with 256 bins (src/area.js:22), so this does not arise, and the model does not carry the failure.

=== FILE: audio.dfy ===
/** Playback state of a Tone.js player, the only part of the audio library the
    modelled code reads (`player.state === "started"` / `"stopped"`). */
module Audio {

  datatype PlayerState = Started | Stopped

  /** `players.every((p) => p.state === "stopped")`; true for no players at all. */
  predicate AllStopped(players: seq<PlayerState>) {
    forall i :: 0 <= i < |players| ==> players[i] == Stopped
  }
}

=== FILE: bar_data.dfy ===
/** The per-tick data shaping of src/bar.js (`updateData`): the stacked volume
    rows fed to the radial bars and the flattened waveform rows fed to the
    radial lines. Meter and waveform reads are inputs. */
module BarData {
  import opened Geometry

  /** `meter.getValue()` is called twice per track; Tone's meter smooths its
      level on every call, so the two reads are kept apart. */
  datatype MeterReads = MeterReads(first: real, second: real)

  datatype VolumeRow = VolumeRow(index: nat, level: nat, volume: real)

  datatype WaveRow = WaveRow(value: real, index: nat, key: nat)

  /** `volumes`: two rows per track, levels 0 and 1, each holding half a meter read. */
  function Volumes(meters: seq<MeterReads>): (rows: seq<VolumeRow>)
    ensures |rows| == 2 * |meters|
    ensures forall i :: 0 <= i < |meters| ==>
              && rows[2 * i] == VolumeRow(i, 0, meters[i].first / 2.0)
              && rows[2 * i + 1] == VolumeRow(i, 1, meters[i].second / 2.0)
    decreases |meters|
  {
    if |meters| == 0 then []
    else
      var n := |meters| - 1;
      Volumes(meters[..n])
        + [VolumeRow(n, 0, meters[n].first / 2.0), VolumeRow(n, 1, meters[n].second / 2.0)]
  }

  /** The stacked height of track `i`: the sum of its rows' volumes. */
  function Height(rows: seq<VolumeRow>, i: nat): real
    decreases |rows|
  {
    if |rows| == 0 then 0.0
    else (if rows[0].index == i then rows[0].volume else 0.0) + Height(rows[1..], i)
  }

  lemma {:induction false} HeightAppend(a: seq<VolumeRow>, b: seq<VolumeRow>, i: nat)
    ensures Height(a + b, i) == Height(a, i) + Height(b, i)
    decreases |a|
  {
    if |a| == 0 {
      assert a + b == b;
    } else {
      assert (a + b)[0] == a[0];
      assert (a + b)[1..] == a[1..] + b;
      HeightAppend(a[1..], b, i);
    }
  }

  /** The two levels of a track stack up to the mean of its two meter reads,
      which is the meter value itself when the reads agree; a track index
      beyond the last track has no bar. */
  lemma {:induction false} BarHeight(meters: seq<MeterReads>, i: nat)
    ensures i < |meters| ==> Height(Volumes(meters), i) == (meters[i].first + meters[i].second) / 2.0
    ensures i >= |meters| ==> Height(Volumes(meters), i) == 0.0
    decreases |meters|
  {
    if |meters| > 0 {
      var n := |meters| - 1;
      var last := [VolumeRow(n, 0, meters[n].first / 2.0), VolumeRow(n, 1, meters[n].second / 2.0)];
      assert Volumes(meters) == Volumes(meters[..n]) + last;
      HeightAppend(Volumes(meters[..n]), last, i);
      BarHeight(meters[..n], i);
      assert last[1..][1..] == [];
      assert Height(last, i) == if i == n then (meters[n].first + meters[n].second) / 2.0 else 0.0 by {
        assert Height(last[1..][1..], i) == 0.0;
      }
      if i < n {
        assert meters[..n][i] == meters[i];
      }
    }
  }

  /** The rows one track contributes to `waveforms`. */
  function WaveRows(i: nat, wave: seq<real>): (rows: seq<WaveRow>)
    ensures |rows| == |wave|
    ensures forall j :: 0 <= j < |rows| ==> rows[j] == WaveRow(wave[j], j, i)
  {
    seq(|wave|, j requires 0 <= j < |wave| => WaveRow(wave[j], j, i))
  }

  function TotalLength(waves: seq<seq<real>>): nat
    decreases |waves|
  {
    if |waves| == 0 then 0 else TotalLength(waves[..|waves| - 1]) + |waves[|waves| - 1]|
  }

  /** `waveforms`: every sample of every track, tagged with its position and
      its track index. */
  function Waveforms(waves: seq<seq<real>>): (rows: seq<WaveRow>)
    ensures |rows| == TotalLength(waves)
    ensures forall q :: 0 <= q < |rows| ==> rows[q].key < |waves|
    ensures forall q1, q2 :: 0 <= q1 < q2 < |rows| ==> rows[q1].key <= rows[q2].key
    decreases |waves|
  {
    if |waves| == 0 then []
    else
      var n := |waves| - 1;
      Waveforms(waves[..n]) + WaveRows(n, waves[n])
  }

  /** The rows with key `k`, in order: what `d3.groups(waveforms, (d) => d.key)`
      collects for `k`. */
  function RowsOfKey(rows: seq<WaveRow>, k: nat): seq<WaveRow>
    decreases |rows|
  {
    if |rows| == 0 then []
    else (if rows[0].key == k then [rows[0]] else []) + RowsOfKey(rows[1..], k)
  }

  lemma {:induction false} RowsOfKeyAppend(a: seq<WaveRow>, b: seq<WaveRow>, k: nat)
    ensures RowsOfKey(a + b, k) == RowsOfKey(a, k) + RowsOfKey(b, k)
    decreases |a|
  {
    if |a| == 0 {
      assert a + b == b;
    } else {
      assert (a + b)[0] == a[0];
      assert (a + b)[1..] == a[1..] + b;
      RowsOfKeyAppend(a[1..], b, k);
    }
  }

  lemma {:induction false} RowsOfKeyAll(rows: seq<WaveRow>, k: nat)
    requires forall q :: 0 <= q < |rows| ==> rows[q].key == k
    ensures RowsOfKey(rows, k) == rows
    decreases |rows|
  {
    if |rows| > 0 {
      RowsOfKeyAll(rows[1..], k);
    }
  }

  lemma {:induction false} RowsOfKeyNone(rows: seq<WaveRow>, k: nat)
    requires forall q :: 0 <= q < |rows| ==> rows[q].key != k
    ensures RowsOfKey(rows, k) == []
    decreases |rows|
  {
    if |rows| > 0 {
      RowsOfKeyNone(rows[1..], k);
    }
  }

  /** Grouping `waveforms` by key gives back each track's vector, with sample
      positions as indices; a key that is no track index has no rows. */
  lemma {:induction false} WaveformGroups(waves: seq<seq<real>>, k: nat)
    ensures k < |waves| ==> RowsOfKey(Waveforms(waves), k) == WaveRows(k, waves[k])
    ensures k >= |waves| ==> RowsOfKey(Waveforms(waves), k) == []
    decreases |waves|
  {
    if |waves| == 0 {
    } else {
      var n := |waves| - 1;
      var front := Waveforms(waves[..n]);
      var last := WaveRows(n, waves[n]);
      RowsOfKeyAppend(front, last, k);
      WaveformGroups(waves[..n], k);
      if k == n {
        RowsOfKeyNone(front, k);
        RowsOfKeyAll(last, k);
      } else {
        RowsOfKeyNone(last, k);
        if k < n {
          assert waves[..n][k] == waves[k];
        }
      }
    }
  }

  /** `d3.extent` of a non-empty group: its least and greatest value. */
  function Extent(values: seq<real>): (e: (real, real))
    requires |values| > 0
    ensures e.0 in values && e.1 in values
    ensures forall k :: 0 <= k < |values| ==> e.0 <= values[k] <= e.1
    decreases |values|
  {
    if |values| == 1 then (values[0], values[0])
    else
      var rest := Extent(values[1..]);
      assert forall k :: 1 <= k < |values| ==> values[k] == values[1..][k - 1];
      (if values[0] <= rest.0 then values[0] else rest.0,
       if values[0] >= rest.1 then values[0] else rest.1)
  }

  /** Stroke of one waveform trace in `lines`. */
  datatype Stroke = Stroke(width: real, opacity: real)

  /** The trace's stroke width (`[0, 1] -> [0, 6]`) and opacity
      (`[0, 1] -> [0.75, 1]`) grow linearly with the spread of its values;
      d3's linear scales do not clamp, so a spread above 1 goes past 6 and 1. */
  function LineStroke(values: seq<real>): (st: Stroke)
    requires |values| > 0
    ensures st.width >= 0.0 && st.opacity >= 0.75
    ensures st.width == 6.0 * (Extent(values).1 - Extent(values).0)
    ensures st.opacity == 0.75 + st.width / 24.0
    ensures (forall k :: 0 <= k < |values| ==> values[k] == values[0]) ==> st.width == 0.0
  {
    var e := Extent(values);
    var diff := if e.1 - e.0 >= 0.0 then e.1 - e.0 else e.0 - e.1;
    RemapAffine(diff, 0.0, 1.0, 0.0, 6.0);
    RemapAffine(diff, 0.0, 1.0, 0.75, 1.0);
    Stroke(Remap(diff, 0.0, 1.0, 0.0, 6.0), Remap(diff, 0.0, 1.0, 0.75, 1.0))
  }

  /** A trace whose values are spread wider than another's is drawn at least as
      thick and as opaque. */
  lemma LineStrokeMonotone(a: seq<real>, b: seq<real>)
    requires |a| > 0 && |b| > 0
    requires Extent(a).1 - Extent(a).0 <= Extent(b).1 - Extent(b).0
    ensures LineStroke(a).width <= LineStroke(b).width
    ensures LineStroke(a).opacity <= LineStroke(b).opacity
  {
  }
}

=== FILE: control.dfy ===
/** The interactive control mapper of src/bar.js: a control point confined to a
    disk, moved either by dragging or by a noise walk, whose distance to each
    track's anchor sets that track's gain.

    The noise walk (`randomNoise`) and the trigonometry that places anchors and
    walk points are not modelled: the walk point `(radius * cos(angle),
    radius * sin(angle))` and every anchor are inputs, and every Euclidean length
    is an input witness (see `Geometry.IsLength`).
 */
module ControlMapper {
  import opened Geometry
  import opened Audio

  const InnerRadius: real := 120.0

  /** `r = innerRadius / 2`: the radius of the disk the control point lives in. */
  const ControlRadius: real := InnerRadius / 2.0

  /** The level, in decibels, of a fully attenuated track (`clamped * -60`). */
  const FloorDb: real := -60.0

  datatype DragMode = Idle | Dragging

  /** The closure state of `bar`: `controlX/Y`, `preX/Y`, `offsetX/Y`,
      `isDragging`, `isPlaying` and `count`. */
  datatype ControlState = ControlState(
    control: Point,
    pre: Point,
    offset: Point,
    mode: DragMode,
    playing: bool,
    count: nat)

  const Initial: ControlState := ControlState(Origin, Origin, Origin, Idle, false, 0)

  /** The control point is inside the disk of radius `ControlRadius`. */
  predicate Valid(s: ControlState) {
    InDisk(ControlRadius, s.control)
  }

  // ---------------------------------------------------------------- dragging

  /** One pointer position of a drag, with its length witness. */
  datatype Move = Move(raw: Point, dist: real)

  predicate WellFormed(m: Move) {
    IsLength(m.raw, m.dist)
  }

  /** Drag "start": enter Dragging and remember where the point was. */
  function DragStart(s: ControlState): (t: ControlState)
    ensures t.mode == Dragging
    ensures t.pre == s.control && t.control == s.control
    ensures t.offset == s.offset && t.playing == s.playing && t.count == s.count
  {
    s.(mode := Dragging, pre := s.control)
  }

  /** Drag "drag": the pointer position, clamped onto the disk, becomes the
      control point. Nothing else changes; in particular not the offset. */
  function DragMove(s: ControlState, m: Move): (t: ControlState)
    requires WellFormed(m)
    ensures Valid(t)
    ensures m.dist <= ControlRadius ==> t.control == m.raw
    ensures m.dist > ControlRadius ==> Norm2(t.control) == ControlRadius * ControlRadius
    ensures t.control == Constrain(ControlRadius, m.raw, m.dist)
    ensures t.offset == s.offset && t.pre == s.pre && t.mode == s.mode
    ensures t.playing == s.playing && t.count == s.count
  {
    s.(control := Constrain(ControlRadius, m.raw, m.dist))
  }

  /** Drag "end": back to Idle, committing the net displacement of the drag
      into the persistent offset. */
  function DragEnd(s: ControlState): (t: ControlState)
    ensures t.mode == Idle
    ensures t.offset == Add(s.offset, Sub(s.control, s.pre))
    ensures t.control == s.control && t.pre == s.pre
    ensures t.playing == s.playing && t.count == s.count
  {
    s.(mode := Idle, offset := Point(s.offset.x + (s.control.x - s.pre.x),
                                     s.offset.y + (s.control.y - s.pre.y)))
  }

  /** A run of drag moves: it never touches the offset, the origin or the mode,
      and after at least one move the point is in the disk. */
  function Moves(s: ControlState, ms: seq<Move>): (t: ControlState)
    requires forall i :: 0 <= i < |ms| ==> WellFormed(ms[i])
    ensures t.offset == s.offset && t.pre == s.pre && t.mode == s.mode
    ensures t.playing == s.playing && t.count == s.count
    ensures |ms| == 0 ==> t == s
    ensures |ms| > 0 ==> Valid(t)
    ensures |ms| > 0 ==> t.control == DragMove(s, ms[|ms| - 1]).control
    decreases |ms|
  {
    if |ms| == 0 then s else Moves(DragMove(s, ms[0]), ms[1..])
  }

  /** A whole gesture (start, any number of moves, end) adds exactly its net
      displacement to the offset, once, and leaves the machine Idle. */
  lemma GestureCommitsOnce(s: ControlState, ms: seq<Move>)
    requires forall i :: 0 <= i < |ms| ==> WellFormed(ms[i])
    ensures var t := DragEnd(Moves(DragStart(s), ms));
            && t.mode == Idle
            && t.offset == Add(s.offset, Sub(t.control, s.control))
            && (|ms| == 0 ==> t.offset == s.offset)
  {
  }

  // ---------------------------------------------------------------- play/stop

  /** `toggle` (a click): flip `isPlaying`, stopping every player when it was
      playing and starting every player otherwise. */
  function Toggle(s: ControlState, players: seq<PlayerState>): (r: (ControlState, seq<PlayerState>))
    ensures r.0.playing == !s.playing
    ensures r.0 == s.(playing := r.0.playing)
    ensures |r.1| == |players|
    ensures forall i :: 0 <= i < |players| ==> r.1[i] == (if s.playing then Stopped else Started)
  {
    if s.playing then
      (s.(playing := false), seq(|players|, _ => Stopped))
    else
      (s.(playing := true), seq(|players|, _ => Started))
  }

  /** Two clicks restore the control state. */
  lemma ToggleTwice(s: ControlState, p: seq<PlayerState>, q: seq<PlayerState>)
    ensures Toggle(Toggle(s, p).0, q).0 == s
  {
  }

  // ---------------------------------------------------------------- the walk

  /** The guard of `updateControl`: the walk is frozen while dragging, while
      paused, and while every player has stopped. */
  predicate WalkBlocked(s: ControlState, players: seq<PlayerState>) {
    s.mode == Dragging || !s.playing || AllStopped(players)
  }

  /** `updateControl`: when not blocked, the walk point `walk` (the noise walk
      at `count / 100`) shifted by the persistent offset and clamped onto the
      disk becomes the control point, and `count` advances by one. `dist` is the
      length of the shifted walk point. */
  function UpdateControl(s: ControlState, players: seq<PlayerState>, walk: Point, dist: real): (t: ControlState)
    requires IsLength(Add(walk, s.offset), dist)
    ensures WalkBlocked(s, players) ==> t == s
    ensures !WalkBlocked(s, players) ==>
              && t.count == s.count + 1
              && Valid(t)
              && (dist <= ControlRadius ==> t.control == Add(walk, s.offset))
              && t.control == Constrain(ControlRadius, Add(walk, s.offset), dist)
              && t == s.(control := t.control, count := t.count)
  {
    if WalkBlocked(s, players) then s
    else
      var p := Point(walk.x + s.offset.x, walk.y + s.offset.y);
      s.(control := Constrain(ControlRadius, p, dist), count := s.count + 1)
  }

  // ---------------------------------------------------------------- the gain

  function Min(a: real, b: real): real { if a <= b then a else b }
  function Max(a: real, b: real): real { if a >= b then a else b }

  /** Below the near threshold the raw density is not positive; beyond the far
      threshold it is at least 1. */
  lemma DensityOutsideRamp(pd: real)
    ensures var r := ControlRadius;
            && (pd <= r * 2.0 ==> Remap(pd, r * 2.0, r * 3.0, 0.0, 1.0) <= 0.0)
            && (pd >= r * 3.0 ==> Remap(pd, r * 2.0, r * 3.0, 0.0, 1.0) >= 1.0)
  {
  }

  /** The clamped attenuation of a track whose anchor is `pd` away from the
      control point: 0 up to twice the control radius, 1 from three times it,
      linear in between. */
  function Attenuation(pd: real): (a: real)
    ensures 0.0 <= a <= 1.0
    ensures pd <= 2.0 * ControlRadius ==> a == 0.0
    ensures pd >= 3.0 * ControlRadius ==> a == 1.0
  {
    var r := ControlRadius;
    var density := Remap(pd, r * 2.0, r * 3.0, 0.0, 1.0);
    DensityOutsideRamp(pd);
    Min(1.0, Max(density, 0.0))
  }

  /** The level, in decibels, that `updateVolume` ramps a track to. */
  function Gain(pd: real): (t: real)
    ensures FloorDb <= t <= 0.0
    ensures pd <= 2.0 * ControlRadius ==> t == 0.0
    ensures pd >= 3.0 * ControlRadius ==> t == FloorDb
  {
    Attenuation(pd) * -60.0
  }

  /** Moving the control point away from an anchor never makes that track louder. */
  lemma GainMonotone(pd1: real, pd2: real)
    requires pd1 <= pd2
    ensures Attenuation(pd1) <= Attenuation(pd2)
    ensures Gain(pd2) <= Gain(pd1)
  {
  }

  /** Every level between the floor and unity is reached, at the distance the
      linear ramp predicts. */
  lemma GainReachesEveryLevel(t: real)
    requires FloorDb <= t <= 0.0
    ensures Gain(2.0 * ControlRadius + ControlRadius * (t / FloorDb)) == t
  {
  }

  /** `updateVolume`: one level per track, from the distance `pds[i]` between
      the control point and the track's anchor `anchors[i]`. */
  method UpdateVolume(control: Point, anchors: seq<Point>, pds: seq<real>) returns (levels: seq<real>)
    requires |pds| == |anchors|
    requires forall i :: 0 <= i < |anchors| ==> IsLength(Sub(anchors[i], control), pds[i])
    ensures |levels| == |anchors|
    ensures forall i :: 0 <= i < |levels| ==> levels[i] == Gain(pds[i])
    ensures forall i :: 0 <= i < |levels| ==> FloorDb <= levels[i] <= 0.0
    ensures forall i :: 0 <= i < |levels| ==>
              Norm2(Sub(anchors[i], control)) <= (2.0 * ControlRadius) * (2.0 * ControlRadius) ==> levels[i] == 0.0
    ensures forall i :: 0 <= i < |levels| ==>
              Norm2(Sub(anchors[i], control)) >= (3.0 * ControlRadius) * (3.0 * ControlRadius) ==> levels[i] == FloorDb
    ensures forall i, j :: 0 <= i < |levels| && 0 <= j < |levels| ==>
              Norm2(Sub(anchors[i], control)) <= Norm2(Sub(anchors[j], control)) ==> levels[j] <= levels[i]
  {
    levels := [];
    for i := 0 to |anchors|
      invariant |levels| == i
      invariant forall k :: 0 <= k < i ==> levels[k] == Gain(pds[k])
    {
      levels := levels + [Gain(pds[i])];
    }
    forall i | 0 <= i < |levels|
      ensures Norm2(Sub(anchors[i], control)) <= (2.0 * ControlRadius) * (2.0 * ControlRadius) ==> levels[i] == 0.0
      ensures Norm2(Sub(anchors[i], control)) >= (3.0 * ControlRadius) * (3.0 * ControlRadius) ==> levels[i] == FloorDb
    {
      SquareMonotone(pds[i], 2.0 * ControlRadius);
      SquareMonotone(3.0 * ControlRadius, pds[i]);
    }
    forall i, j | 0 <= i < |levels| && 0 <= j < |levels|
      ensures Norm2(Sub(anchors[i], control)) <= Norm2(Sub(anchors[j], control)) ==> levels[j] <= levels[i]
    {
      SquareMonotone(pds[i], pds[j]);
      if pds[i] <= pds[j] {
        GainMonotone(pds[i], pds[j]);
      }
    }
  }

  /** With the control point at the centre (its initial place), every anchor on
      the inner circle is exactly at the near threshold, so every track plays
      at unity gain. */
  lemma CentredControlIsUnity(anchor: Point, pd: real)
    requires Norm2(anchor) == InnerRadius * InnerRadius
    requires IsLength(Sub(anchor, Origin), pd)
    ensures Gain(pd) == 0.0
  {
  }

  // ---------------------------------------------------------------- sessions

  /** The inputs that reach the control state: pointer gestures, clicks and
      timer ticks (with the players' states and the walk point of that tick). */
  datatype ControlEvent =
    | PointerDown
    | PointerMove(m: Move)
    | PointerUp
    | Click(players: seq<PlayerState>)
    | Tick(tickPlayers: seq<PlayerState>, walk: Point, dist: real)

  /** The event carries correct length witnesses for the state it meets. */
  predicate Admissible(s: ControlState, e: ControlEvent) {
    match e
    case PointerMove(m) => WellFormed(m)
    case Tick(_, walk, dist) => IsLength(Add(walk, s.offset), dist)
    case _ => true
  }

  function Step(s: ControlState, e: ControlEvent): ControlState
    requires Admissible(s, e)
  {
    match e
    case PointerDown => DragStart(s)
    case PointerMove(m) => DragMove(s, m)
    case PointerUp => DragEnd(s)
    case Click(players) => Toggle(s, players).0
    case Tick(players, walk, dist) => UpdateControl(s, players, walk, dist)
  }

  predicate AdmissibleRun(s: ControlState, es: seq<ControlEvent>)
    decreases |es|
  {
    |es| == 0 || (Admissible(s, es[0]) && AdmissibleRun(Step(s, es[0]), es[1..]))
  }

  function Run(s: ControlState, es: seq<ControlEvent>): ControlState
    requires AdmissibleRun(s, es)
    decreases |es|
  {
    if |es| == 0 then s else Run(Step(s, es[0]), es[1..])
  }

  /** Whatever the user and the walk do, the control point never leaves the disk. */
  lemma {:induction false} RunStaysInDisk(s: ControlState, es: seq<ControlEvent>)
    requires Valid(s) && AdmissibleRun(s, es)
    ensures Valid(Run(s, es))
    decreases |es|
  {
    if |es| > 0 {
      RunStaysInDisk(Step(s, es[0]), es[1..]);
    }
  }

  /** Only a pointer release can change the offset. */
  lemma {:induction false} OffsetChangesOnlyOnRelease(s: ControlState, es: seq<ControlEvent>)
    requires AdmissibleRun(s, es)
    requires forall i :: 0 <= i < |es| ==> !es[i].PointerUp?
    ensures Run(s, es).offset == s.offset
    decreases |es|
  {
    if |es| > 0 {
      OffsetChangesOnlyOnRelease(Step(s, es[0]), es[1..]);
    }
  }
}

=== FILE: geometry.dfy ===
/** Plane geometry shared by the radial mixer: points, the disk clamp (`constrain`)
    and the linear remap (`map`) of src/bar.js.

    Dafny has no square root, so every Euclidean length the source obtains from
    `Math.sqrt(x * x + y * y)` is passed in as a witness `d` with `IsLength(p, d)`:
    `d` is non-negative and its square is the squared length of `p`. Such a `d`
    is unique, so nothing is lost by taking it as an input.
 */
module Geometry {

  datatype Point = Point(x: real, y: real)

  const Origin: Point := Point(0.0, 0.0)

  function Add(p: Point, q: Point): Point {
    Point(p.x + q.x, p.y + q.y)
  }

  function Sub(p: Point, q: Point): Point {
    Point(p.x - q.x, p.y - q.y)
  }

  /** Squared Euclidean length. */
  function Norm2(p: Point): real {
    p.x * p.x + p.y * p.y
  }

  function Dot(p: Point, q: Point): real {
    p.x * q.x + p.y * q.y
  }

  function Cross(p: Point, q: Point): real {
    p.x * q.y - p.y * q.x
  }

  /** `d` is the Euclidean length of `p`, i.e. `Math.sqrt(p.x * p.x + p.y * p.y)`. */
  predicate IsLength(p: Point, d: real) {
    d >= 0.0 && d * d == Norm2(p)
  }

  /** `p` lies in the closed disk of radius `r` around the origin. */
  predicate InDisk(r: real, p: Point) {
    Norm2(p) <= r * r
  }

  /** For non-negative reals, comparing squares is comparing the numbers. */
  lemma SquareMonotone(a: real, b: real)
    requires a >= 0.0 && b >= 0.0
    ensures a <= b <==> a * a <= b * b
  {
    if a <= b {
      assert a * a <= a * b <= b * b;
    } else {
      calc {
        b * b;
      <=
        a * b;
      <
        a * a;
      }
    }
  }

  /** The length witness of a point is unique. */
  lemma LengthUnique(p: Point, d1: real, d2: real)
    requires IsLength(p, d1) && IsLength(p, d2)
    ensures d1 == d2
  {
    SquareMonotone(d1, d2);
    SquareMonotone(d2, d1);
  }

  /** `constrain(r, x, y)`: a point farther than `r` from the origin is pulled back
      along its own ray onto the circle of radius `r`; a point inside is kept.
      `d` is the point's length (the source's `distance`). */
  function Constrain(r: real, p: Point, d: real): (q: Point)
    requires r >= 0.0
    requires IsLength(p, d)
    ensures InDisk(r, q)
    ensures d <= r ==> q == p
    ensures d > r ==> Norm2(q) == r * r
    ensures d > r ==> Cross(p, q) == 0.0 && Dot(p, q) == r * d
  {
    if d > r then
      var s := r / d;
      var q := Point(p.x * s, p.y * s);
      assert Norm2(q) == s * s * Norm2(p);
      assert s * d == r;
      assert Norm2(q) == r * r by {
        calc {
          s * s * Norm2(p);
          s * s * (d * d);
          (s * d) * (s * d);
        }
      }
      assert Dot(p, q) == s * (d * d);
      q
    else
      SquareMonotone(d, r);
      p
  }

  /** Clamping a point that is already clamped changes nothing. */
  lemma ConstrainIdempotent(r: real, p: Point, d: real, d2: real)
    requires r >= 0.0
    requires IsLength(p, d)
    requires IsLength(Constrain(r, p, d), d2)
    ensures Constrain(r, Constrain(r, p, d), d2) == Constrain(r, p, d)
  {
    SquareMonotone(d2, r);
  }

  /** `map(x, inMin, inMax, outMin, outMax)`: the linear remap that sends
      `inMin` to `outMin` and `inMax` to `outMax`. The source divides by
      `inMax - inMin`, so an empty input range is not a meaningful call. */
  function Remap(x: real, inMin: real, inMax: real, outMin: real, outMax: real): (y: real)
    requires inMin != inMax
    ensures x == inMin ==> y == outMin
    ensures x == inMax ==> y == outMax
  {
    RemapEnds(x, inMin, inMax, outMin, outMax);
    ((x - inMin) * (outMax - outMin)) / (inMax - inMin) + outMin
  }

  lemma RemapEnds(x: real, inMin: real, inMax: real, outMin: real, outMax: real)
    requires inMin != inMax
    ensures x == inMin ==> ((x - inMin) * (outMax - outMin)) / (inMax - inMin) == 0.0
    ensures x == inMax ==> ((x - inMin) * (outMax - outMin)) / (inMax - inMin) == outMax - outMin
  {
  }

  /** The remap is affine: the point a fraction `t` of the way through the
      input range lands the same fraction of the way through the output range. */
  lemma RemapAffine(t: real, inMin: real, inMax: real, outMin: real, outMax: real)
    requires inMin != inMax
    ensures Remap(inMin + t * (inMax - inMin), inMin, inMax, outMin, outMax)
            == outMin + t * (outMax - outMin)
  {
  }

  /** Remapping back with the ranges swapped recovers the input. */
  lemma RemapInverse(x: real, inMin: real, inMax: real, outMin: real, outMax: real)
    requires inMin != inMax && outMin != outMax
    ensures Remap(Remap(x, inMin, inMax, outMin, outMax), outMin, outMax, inMin, inMax) == x
  {
  }

  /** Division by a positive number preserves order. */
  lemma DivMonotone(p1: real, p2: real, w: real)
    requires p1 <= p2 && w > 0.0
    ensures p1 / w <= p2 / w
  {
  }

  /** With both ranges increasing, the remap preserves order. */
  lemma RemapMonotone(x1: real, x2: real, inMin: real, inMax: real, outMin: real, outMax: real)
    requires inMin < inMax && outMin <= outMax
    requires x1 <= x2
    ensures Remap(x1, inMin, inMax, outMin, outMax) <= Remap(x2, inMin, inMax, outMin, outMax)
  {
    var v := outMax - outMin;
    assert (x2 - inMin) * v - (x1 - inMin) * v == (x2 - x1) * v;
    DivMonotone((x1 - inMin) * v, (x2 - inMin) * v, inMax - inMin);
  }
}

=== FILE: keys.dfy ===
/** Keyboard dispatch of src/area.js (`keydown`): "a", "s", "d" and "f" start
    players 0 to 3, "c" is meant to clear the dataset and play the cancel
    sound, and every other key is ignored. */
module KeyDispatch {
  import opened Audio
  import opened Sampler

  /** The session state `keydown` can reach: the track players, the cancel
      player and the accumulated dataset. */
  datatype AreaState = AreaState(players: seq<PlayerState>, cancel: PlayerState, data: seq<Row>)

  /** The exceptions a handler can throw. */
  datatype JsError =
    | TypeError       // `players[n]` is `undefined`: fewer than n + 1 tracks
    | ReferenceError  // reading an undeclared variable

  /** A handler either finishes with a new state or throws; every throw in
      `keydown` happens before any assignment, so a throw changes nothing. */
  datatype Handled = Done(state: AreaState) | Threw(error: JsError)

  function After(s: AreaState, h: Handled): AreaState {
    if h.Done? then h.state else s
  }

  /** `players[n].start()`: a missing player is a TypeError. Starting a
      started player restarts it, which leaves it started. */
  function StartPlayer(s: AreaState, n: nat): (h: Handled)
    ensures n < |s.players| <==> h.Done?
    ensures h.Done? ==> h.state.data == s.data && h.state.cancel == s.cancel
    ensures h.Done? ==> |h.state.players| == |s.players| && h.state.players[n] == Started
    ensures h.Done? ==> forall u :: 0 <= u < |s.players| && u != n ==> h.state.players[u] == s.players[u]
    ensures h.Threw? ==> h.error == TypeError
  {
    if n < |s.players| then Done(s.(players := s.players[n := Started])) else Threw(TypeError)
  }

  /** The player slot a key starts. */
  function PlayerOfKey(key: string): (n: int)
    ensures n == 0 <==> key == "a"
    ensures n == 1 <==> key == "s"
    ensures n == 2 <==> key == "d"
    ensures n == 3 <==> key == "f"
    ensures n == -1 <==> key != "a" && key != "s" && key != "d" && key != "f"
  {
    match key
    case "a" => 0
    case "s" => 1
    case "d" => 2
    case "f" => 3
    case _ => -1
  }

  /** `keydown` as written. Its "c" branch assigns `state.data` where no
      `state` is declared; reading an undeclared variable throws a
      ReferenceError, so neither the dataset nor the cancel player changes. */
  function KeyDown(s: AreaState, key: string): (h: Handled)
    ensures PlayerOfKey(key) >= 0 ==> h == StartPlayer(s, PlayerOfKey(key))
    ensures key == "c" ==> h == Threw(ReferenceError)
    ensures PlayerOfKey(key) < 0 && key != "c" ==> h == Done(s)
  {
    if PlayerOfKey(key) >= 0 then StartPlayer(s, PlayerOfKey(key))
    else if key == "c" then Threw(ReferenceError)
    else Done(s)
  }

  /** As written, no key ever changes the dataset or the cancel player, and
      no key stops or removes a player. */
  lemma KeyDownKeepsData(s: AreaState, key: string)
    ensures After(s, KeyDown(s, key)).data == s.data
    ensures After(s, KeyDown(s, key)).cancel == s.cancel
    ensures |After(s, KeyDown(s, key)).players| == |s.players|
    ensures forall u :: 0 <= u < |s.players| && s.players[u] == Started ==>
              After(s, KeyDown(s, key)).players[u] == Started
  {
  }

  /** "c" on a non-empty dataset, as written: the data survives and the cancel
      sound does not play. */
  lemma CancelKeyThrows(s: AreaState)
    requires |s.data| > 0 && s.cancel == Stopped
    ensures KeyDown(s, "c").Threw?
    ensures |After(s, KeyDown(s, "c")).data| > 0
    ensures After(s, KeyDown(s, "c")).cancel == Stopped
  {
  }

  /** `keydown` with the "c" branch doing what it evidently means:
      `data = []; cancel.start()`. */
  function KeyDownIntended(s: AreaState, key: string): (h: Handled)
    ensures key == "c" ==> h.Done? && h.state.data == [] && h.state.cancel == Started
                           && h.state.players == s.players
    ensures key != "c" ==> h == KeyDown(s, key)
  {
    if key == "c" then Done(s.(data := [], cancel := Started)) else KeyDown(s, key)
  }
}

=== FILE: names.dfy ===
/** Series names of src/area.js. Every burst of samples is named
    `${i}-${id}`: the decimal track index, a dash, and the text of a fresh
    `Math.random()` value. The fill colour is keyed by `name.split("-")[0]`. */
module SeriesNames {

  predicate IsDigit(c: char) {
    '0' <= c <= '9'
  }

  function Digit(d: nat): (c: char)
    requires d < 10
    ensures IsDigit(c)
  {
    ('0' as int + d) as char
  }

  function DigitValue(c: char): nat {
    if IsDigit(c) then c as int - '0' as int else 0
  }

  /** The decimal text of `n`, as a template literal renders an integer. */
  function Digits(n: nat): (s: string)
    ensures |s| > 0
    ensures forall k :: 0 <= k < |s| ==> IsDigit(s[k])
    ensures s[0] == '0' ==> n == 0
    decreases n
  {
    if n < 10 then [Digit(n)] else Digits(n / 10) + [Digit(n % 10)]
  }

  /** Reads a decimal numeral, most significant digit first. */
  function ParseDigits(s: string): nat
    decreases |s|
  {
    if |s| == 0 then 0 else 10 * ParseDigits(s[..|s| - 1]) + DigitValue(s[|s| - 1])
  }

  lemma {:induction false} ParseDigitsRoundTrip(n: nat)
    ensures ParseDigits(Digits(n)) == n
    decreases n
  {
    if n >= 10 {
      var s := Digits(n / 10) + [Digit(n % 10)];
      assert s[..|s| - 1] == Digits(n / 10);
      ParseDigitsRoundTrip(n / 10);
    }
  }

  /** Different track indices have different decimal texts. */
  lemma DigitsInjective(i: nat, j: nat)
    requires Digits(i) == Digits(j)
    ensures i == j
  {
    ParseDigitsRoundTrip(i);
    ParseDigitsRoundTrip(j);
  }

  /** `name.split("-")[0]`: the longest prefix of `name` without a dash. */
  function ColourKey(name: string): (key: string)
    ensures key <= name
    ensures forall k :: 0 <= k < |key| ==> key[k] != '-'
    ensures |key| < |name| ==> name[|key|] == '-'
    decreases |name|
  {
    if |name| == 0 || name[0] == '-' then [] else [name[0]] + ColourKey(name[1..])
  }

  /** A burst's name: the track index and the text of its random id. The
      source only ever holds the name as text (`Text`); keeping the two parts
      is lossless, since `Text` is injective (`TextInjective`). */
  datatype SeriesName = SeriesName(track: nat, id: string)

  /** `${i}-${id}` */
  function Text(n: SeriesName): string {
    Digits(n.track) + "-" + n.id
  }

  /** The colour key of a burst's name is its track's decimal index, whatever
      text the random id has (it may itself contain dashes, as in `1e-7`). */
  lemma ColourKeyOfName(n: SeriesName)
    ensures ColourKey(Text(n)) == Digits(n.track)
  {
    var d := Digits(n.track);
    var name := Text(n);
    var key := ColourKey(name);
    assert name[|d|] == '-';
    assert |key| == |d|;
    assert key == name[..|key|] == d;
  }

  /** Reading the colour key back as a number gives the track index. */
  lemma ColourKeyReadsTrack(n: SeriesName)
    ensures ParseDigits(ColourKey(Text(n))) == n.track
  {
    ColourKeyOfName(n);
    ParseDigitsRoundTrip(n.track);
  }

  /** Different names have different texts. */
  lemma TextInjective(a: SeriesName, b: SeriesName)
    requires Text(a) == Text(b)
    ensures a == b
  {
    ColourKeyOfName(a);
    ColourKeyOfName(b);
    DigitsInjective(a.track, b.track);
    var k := |Digits(a.track)| + 1;
    assert Text(a)[k..] == a.id;
    assert Text(b)[k..] == b.id;
  }

  /** All bursts of one track share a colour key, and bursts of different
      tracks never do. */
  lemma ColourKeyIdentifiesTrack(a: SeriesName, b: SeriesName)
    ensures ColourKey(Text(a)) == ColourKey(Text(b)) <==> a.track == b.track
  {
    ColourKeyOfName(a);
    ColourKeyOfName(b);
    if Digits(a.track) == Digits(b.track) {
      DigitsInjective(a.track, b.track);
    }
  }
}

=== FILE: palette.dfy ===
/** Colour positions of src/area.js. In spectrum mode each track's colour is
    `d3.interpolateCool` sampled at `(i + 1) / (n + 1)`; the colour ramp itself
    belongs to d3 and is not modelled, only where it is sampled. */
module Palette {

  /** `interpolate(urls)` before the colour ramp: n positions strictly inside
      (0, 1), evenly spaced, never touching the ramp's ends. */
  function Positions(n: nat): (ps: seq<real>)
    ensures |ps| == n
    ensures forall i :: 0 <= i < n ==> 0.0 < ps[i] < 1.0
    ensures forall i, j :: 0 <= i < j < n ==> ps[i] < ps[j]
  {
    var d := (n + 1) as real;
    var ps := seq(n, i requires 0 <= i < n => (i + 1) as real / d);
    forall i | 0 <= i < n
      ensures 0.0 < ps[i] < 1.0
    {
      Fraction((i + 1) as real, d);
    }
    forall i, j | 0 <= i < j < n
      ensures ps[i] < ps[j]
    {
      FractionOrder((i + 1) as real, (j + 1) as real, d);
    }
    ps
  }

  lemma Fraction(a: real, d: real)
    requires 0.0 < a < d
    ensures 0.0 < a / d < 1.0
  {
    var q := a / d;
    var e := (d - a) / d;
    assert e > 0.0;
    assert q + e == (a + (d - a)) / d;
    assert d / d == 1.0;
  }

  lemma FractionOrder(a: real, b: real, d: real)
    requires a < b && d > 0.0
    ensures a / d < b / d
  {
    var p := a / d;
    var q := b / d;
    assert p * d == a && q * d == b;
    assert (q - p) * d == b - a;
  }

  /** Neighbouring positions are one step of 1 / (n + 1) apart. */
  lemma PositionsEvenlySpaced(n: nat, i: nat)
    requires i + 1 < n
    ensures Positions(n)[i + 1] - Positions(n)[i] == 1.0 / (n + 1) as real
  {
  }

  /** The positions are symmetric about the middle of the ramp. */
  lemma PositionsSymmetric(n: nat, i: nat)
    requires i < n
    ensures Positions(n)[i] + Positions(n)[n - 1 - i] == 1.0
  {
  }
}

=== FILE: sampler.dfy ===
/** The sampling loop of src/area.js: on every tick, each started player's
    analyser vector is tagged and appended to the session dataset.

    Analyser vectors, player states and the random burst ids are inputs; the
    drawing that follows each append (d3 stack, scales, area paths) is not
    modelled. */
module Sampler {
  import opened Audio
  import opened SeriesNames

  /** One analyser value: a finite level, or the `-Infinity` an FFT reports
      for silence in decibels. */
  datatype Sample = Level(v: real) | NegInfinity

  /** `waves.every((d) => d === 0 || d === -Infinity)`: true for an empty
      vector too. */
  predicate Silent(v: seq<Sample>) {
    forall k :: 0 <= k < |v| ==> v[k] == Level(0.0) || v[k] == NegInfinity
  }

  /** `{index, name, value}`; the name is kept as its two parts (see
      `SeriesNames.SeriesName`). */
  datatype Row = Row(index: nat, name: SeriesName, value: Sample)

  /** The rows one burst adds: element `j` of the vector becomes row `j`,
      all named `${i}-${id}`. */
  function Tag(i: nat, id: string, v: seq<Sample>): (rows: seq<Row>)
    ensures |rows| == |v|
    ensures forall j :: 0 <= j < |rows| ==>
              rows[j].index == j && rows[j].value == v[j] && rows[j].name == SeriesName(i, id)
  {
    seq(|v|, j requires 0 <= j < |v| => Row(j, SeriesName(i, id), v[j]))
  }

  /** One reading and one id per player. */
  predicate Fits(players: seq<PlayerState>, vectors: seq<seq<Sample>>, ids: seq<string>) {
    |vectors| == |players| && |ids| == |players|
  }

  /** The `for` loop of `loop()` from player `i` on, as written: a stopped
      player is passed over, and a started player whose vector is silent ends
      the whole tick (`return`). */
  function LoopFrom(players: seq<PlayerState>, vectors: seq<seq<Sample>>, ids: seq<string>,
                    i: nat, data: seq<Row>): (r: seq<Row>)
    requires Fits(players, vectors, ids) && i <= |players|
    ensures data <= r
    ensures forall k :: |data| <= k < |r| ==>
              var t := r[k].name.track;
              && i <= t < |players| && players[t] == Started && !Silent(vectors[t])
              && r[k].index < |vectors[t]| && r[k].value == vectors[t][r[k].index]
              && r[k].name.id == ids[t]
    ensures forall k1, k2 :: |data| <= k1 < k2 < |r| ==> r[k1].name.track <= r[k2].name.track
    decreases |players| - i
  {
    if i == |players| then data
    else if players[i] != Started then LoopFrom(players, vectors, ids, i + 1, data)
    else if Silent(vectors[i]) then data
    else LoopFrom(players, vectors, ids, i + 1, data + Tag(i, ids[i], vectors[i]))
  }

  /** One tick of `loop()`. */
  function Loop(players: seq<PlayerState>, vectors: seq<seq<Sample>>, ids: seq<string>,
                data: seq<Row>): (r: seq<Row>)
    requires Fits(players, vectors, ids)
    ensures data <= r
    ensures forall k :: |data| <= k < |r| ==>
              var t := r[k].name.track;
              && t < |players| && players[t] == Started
              && r[k].index < |vectors[t]| && r[k].value == vectors[t][r[k].index]
              && r[k].name.id == ids[t]
    ensures forall k1, k2 :: |data| <= k1 < k2 < |r| ==> r[k1].name.track <= r[k2].name.track
  {
    LoopFrom(players, vectors, ids, 0, data)
  }

  /** The rows of track `t`, in order: what the stack's series for that
      track's bursts are built from. */
  function RowsOfTrack(rows: seq<Row>, t: nat): seq<Row>
    decreases |rows|
  {
    if |rows| == 0 then []
    else (if rows[0].name.track == t then [rows[0]] else []) + RowsOfTrack(rows[1..], t)
  }

  /** How many rows belong to track `t`. */
  function CountTrack(rows: seq<Row>, t: nat): nat {
    |RowsOfTrack(rows, t)|
  }

  lemma {:induction false} RowsOfTrackAppend(a: seq<Row>, b: seq<Row>, t: nat)
    ensures RowsOfTrack(a + b, t) == RowsOfTrack(a, t) + RowsOfTrack(b, t)
    decreases |a|
  {
    if |a| == 0 {
      assert a + b == b;
    } else {
      assert (a + b)[0] == a[0];
      assert (a + b)[1..] == a[1..] + b;
      RowsOfTrackAppend(a[1..], b, t);
    }
  }

  lemma {:induction false} RowsOfTrackNone(rows: seq<Row>, t: nat)
    requires forall k :: 0 <= k < |rows| ==> rows[k].name.track != t
    ensures RowsOfTrack(rows, t) == []
    decreases |rows|
  {
    if |rows| > 0 {
      RowsOfTrackNone(rows[1..], t);
    }
  }

  lemma {:induction false} RowsOfTrackAll(rows: seq<Row>, t: nat)
    requires forall k :: 0 <= k < |rows| ==> rows[k].name.track == t
    ensures RowsOfTrack(rows, t) == rows
    decreases |rows|
  {
    if |rows| > 0 {
      RowsOfTrackAll(rows[1..], t);
    }
  }

  /** No started player before `t` (from `lo` on) has a silent vector: the
      loop reaches player `t`. */
  predicate Reaches(players: seq<PlayerState>, vectors: seq<seq<Sample>>, lo: nat, t: nat)
    requires |vectors| == |players| && t <= |players|
  {
    forall u :: lo <= u < t && players[u] == Started ==> !Silent(vectors[u])
  }

  /** Whatever extends `a + b` continues, after `a`, with `b`. */
  lemma SliceAfter(a: seq<Row>, b: seq<Row>, r: seq<Row>)
    requires a + b <= r
    ensures r[|a|..] == b + r[|a + b|..]
  {
    assert forall k :: |a| <= k < |a + b| ==> r[k] == (a + b)[k];
  }

  /** A burst of track `i` followed by rows of later tracks: track `i`'s rows
      are the burst, and any later track's rows come from the tail. */
  lemma BurstRows(i: nat, id: string, v: seq<Sample>, tail: seq<Row>, t: nat)
    requires i <= t
    requires forall k :: 0 <= k < |tail| ==> i < tail[k].name.track
    ensures RowsOfTrack(Tag(i, id, v) + tail, t) == if i == t then Tag(i, id, v) else RowsOfTrack(tail, t)
  {
    var burst := Tag(i, id, v);
    RowsOfTrackAppend(burst, tail, t);
    if i == t {
      RowsOfTrackAll(burst, t);
      RowsOfTrackNone(tail, t);
    } else {
      RowsOfTrackNone(burst, t);
    }
  }

  /** A started player with signal adds its burst in front of whatever the
      rest of the tick adds. */
  lemma BurstContribution(players: seq<PlayerState>, vectors: seq<seq<Sample>>,
                          ids: seq<string>, i: nat, data: seq<Row>, t: nat)
    requires Fits(players, vectors, ids) && i <= t < |players|
    requires players[i] == Started && !Silent(vectors[i])
    ensures var data' := data + Tag(i, ids[i], vectors[i]);
            LoopFrom(players, vectors, ids, i, data)[|data|..]
            == Tag(i, ids[i], vectors[i]) + LoopFrom(players, vectors, ids, i + 1, data')[|data'|..]
    ensures var data' := data + Tag(i, ids[i], vectors[i]);
            RowsOfTrack(LoopFrom(players, vectors, ids, i, data)[|data|..], t)
            == if i == t then Tag(i, ids[i], vectors[i])
               else RowsOfTrack(LoopFrom(players, vectors, ids, i + 1, data')[|data'|..], t)
  {
    var burst := Tag(i, ids[i], vectors[i]);
    var data' := data + burst;
    var rest := LoopFrom(players, vectors, ids, i + 1, data');
    assert LoopFrom(players, vectors, ids, i, data) == rest;
    assert data' <= rest;
    SliceAfter(data, burst, rest);
    var tail := rest[|data'|..];
    assert forall k :: 0 <= k < |tail| ==> tail[k] == rest[|data'| + k];
    BurstRows(i, ids[i], vectors[i], tail, t);
  }

  /** A started player with a silent vector ends the tick: nothing is added,
      and no later player is reached. */
  lemma SilentStep(players: seq<PlayerState>, vectors: seq<seq<Sample>>,
                   ids: seq<string>, i: nat, data: seq<Row>, t: nat)
    requires Fits(players, vectors, ids) && i <= t < |players|
    requires players[i] == Started && Silent(vectors[i])
    ensures LoopFrom(players, vectors, ids, i, data)[|data|..] == []
    ensures i < t ==> !Reaches(players, vectors, i, t)
  {
  }

  lemma {:induction false} LoopFromContribution(players: seq<PlayerState>, vectors: seq<seq<Sample>>,
                                                ids: seq<string>, i: nat, data: seq<Row>, t: nat)
    requires Fits(players, vectors, ids) && i <= t < |players|
    ensures RowsOfTrack(LoopFrom(players, vectors, ids, i, data)[|data|..], t)
            == if Reaches(players, vectors, i, t) && players[t] == Started && !Silent(vectors[t])
               then Tag(t, ids[t], vectors[t]) else []
    ensures CountTrack(LoopFrom(players, vectors, ids, i, data)[|data|..], t)
            == if Reaches(players, vectors, i, t) && players[t] == Started && !Silent(vectors[t])
               then |vectors[t]| else 0
    decreases |players| - i
  {
    if players[i] != Started {
      if i == t {
        var r := LoopFrom(players, vectors, ids, i, data);
        RowsOfTrackNone(r[|data|..], t);
      } else {
        assert Reaches(players, vectors, i, t) == Reaches(players, vectors, i + 1, t);
        LoopFromContribution(players, vectors, ids, i + 1, data, t);
      }
    } else if Silent(vectors[i]) {
      SilentStep(players, vectors, ids, i, data, t);
    } else {
      BurstContribution(players, vectors, ids, i, data, t);
      if i < t {
        assert Reaches(players, vectors, i, t) == Reaches(players, vectors, i + 1, t);
        LoopFromContribution(players, vectors, ids, i + 1, data + Tag(i, ids[i], vectors[i]), t);
      }
    }
  }

  /** What one tick adds for player `t`: exactly its burst (so its whole
      vector, at indices 0 to its length) when it is started, not silent, and
      no started player before it was silent; nothing otherwise. The rest of
      the dataset is kept as a prefix. */
  lemma LoopContribution(players: seq<PlayerState>, vectors: seq<seq<Sample>>, ids: seq<string>,
                         data: seq<Row>, t: nat)
    requires Fits(players, vectors, ids) && t < |players|
    ensures data <= Loop(players, vectors, ids, data)
    ensures RowsOfTrack(Loop(players, vectors, ids, data)[|data|..], t)
            == if Reaches(players, vectors, 0, t) && players[t] == Started && !Silent(vectors[t])
               then Tag(t, ids[t], vectors[t]) else []
    ensures CountTrack(Loop(players, vectors, ids, data)[|data|..], t)
            == if Reaches(players, vectors, 0, t) && players[t] == Started && !Silent(vectors[t])
               then |vectors[t]| else 0
  {
    LoopFromContribution(players, vectors, ids, 0, data, t);
  }

  lemma {:induction false} SkipStopped(players: seq<PlayerState>, vectors: seq<seq<Sample>>,
                                       ids: seq<string>, j: nat, k: nat, data: seq<Row>)
    requires Fits(players, vectors, ids) && j <= k <= |players|
    requires forall u :: j <= u < k ==> players[u] == Stopped
    ensures LoopFrom(players, vectors, ids, j, data) == LoopFrom(players, vectors, ids, k, data)
    decreases k - j
  {
    if j < k {
      SkipStopped(players, vectors, ids, j + 1, k, data);
    }
  }

  /** With exactly one started player, a tick appends exactly that player's
      burst, so the dataset grows by the vector's length. */
  lemma SingleStartedTrack(players: seq<PlayerState>, vectors: seq<seq<Sample>>, ids: seq<string>,
                           data: seq<Row>, i: nat)
    requires Fits(players, vectors, ids) && i < |players|
    requires forall u :: 0 <= u < |players| ==> (players[u] == Started <==> u == i)
    requires !Silent(vectors[i])
    ensures Loop(players, vectors, ids, data) == data + Tag(i, ids[i], vectors[i])
    ensures |Loop(players, vectors, ids, data)| == |data| + |vectors[i]|
  {
    SkipStopped(players, vectors, ids, 0, i, data);
    SkipStopped(players, vectors, ids, i + 1, |players|, data + Tag(i, ids[i], vectors[i]));
  }

  /** The silence guard returns: once a started player's vector is silent,
      no player from it on adds anything in this tick. */
  lemma {:induction false} SilenceEndsTick(players: seq<PlayerState>, vectors: seq<seq<Sample>>,
                                           ids: seq<string>, j: nat, data: seq<Row>, i: nat)
    requires Fits(players, vectors, ids) && j <= i < |players|
    requires players[i] == Started && Silent(vectors[i])
    ensures var r := LoopFrom(players, vectors, ids, j, data);
            forall k :: |data| <= k < |r| ==> r[k].name.track < i
    decreases i - j
  {
    var r := LoopFrom(players, vectors, ids, j, data);
    if j == i {
      assert r == data;
    } else if players[j] != Started {
      assert r == LoopFrom(players, vectors, ids, j + 1, data);
      SilenceEndsTick(players, vectors, ids, j + 1, data, i);
    } else if Silent(vectors[j]) {
      assert r == data;
    } else {
      var burst := Tag(j, ids[j], vectors[j]);
      var data' := data + burst;
      assert r == LoopFrom(players, vectors, ids, j + 1, data');
      SilenceEndsTick(players, vectors, ids, j + 1, data', i);
      forall k | |data| <= k < |r|
        ensures r[k].name.track < i
      {
        if k < |data'| {
          assert r[k] == burst[k - |data|];
        }
      }
    }
  }

  /** In particular, a silent first started player leaves the dataset as it was. */
  lemma SilentFirstTrackKeepsData(players: seq<PlayerState>, vectors: seq<seq<Sample>>,
                                  ids: seq<string>, data: seq<Row>, i: nat)
    requires Fits(players, vectors, ids) && i < |players|
    requires forall u :: 0 <= u < i ==> players[u] == Stopped
    requires players[i] == Started && Silent(vectors[i])
    ensures Loop(players, vectors, ids, data) == data
  {
    SkipStopped(players, vectors, ids, 0, i, data);
  }

  // ------------------------------------------------------------ many ticks

  datatype TickInput = TickInput(vectors: seq<seq<Sample>>, ids: seq<string>)

  function Ticks(players: seq<PlayerState>, ticks: seq<TickInput>, data: seq<Row>): seq<Row>
    requires forall n :: 0 <= n < |ticks| ==> Fits(players, ticks[n].vectors, ticks[n].ids)
    decreases |ticks|
  {
    if |ticks| == 0 then data
    else Ticks(players, ticks[1..], Loop(players, ticks[0].vectors, ticks[0].ids, data))
  }

  /** With only player `i` started and a non-silent vector of length `k` on
      every tick, `n` ticks append exactly `n * k` rows, all of track `i`. */
  lemma {:induction false} SingleTrackSession(players: seq<PlayerState>, ticks: seq<TickInput>,
                                              data: seq<Row>, i: nat, k: nat)
    requires i < |players|
    requires forall u :: 0 <= u < |players| ==> (players[u] == Started <==> u == i)
    requires forall n :: 0 <= n < |ticks| ==>
               && Fits(players, ticks[n].vectors, ticks[n].ids)
               && |ticks[n].vectors[i]| == k && !Silent(ticks[n].vectors[i])
    ensures var r := Ticks(players, ticks, data);
            && data <= r
            && |r| == |data| + |ticks| * k
            && forall q :: |data| <= q < |r| ==> r[q].name.track == i
    decreases |ticks|
  {
    if |ticks| > 0 {
      var t0 := ticks[0];
      SingleStartedTrack(players, t0.vectors, t0.ids, data, i);
      var data' := Loop(players, t0.vectors, t0.ids, data);
      SingleTrackSession(players, ticks[1..], data', i, k);
      var r := Ticks(players, ticks, data);
      assert r == Ticks(players, ticks[1..], data');
      forall q | |data| <= q < |r|
        ensures r[q].name.track == i
      {
        if q < |data'| {
          assert r[q] == data'[q];
        }
      }
    }
  }

  /** Five ticks of 256-bin vectors from the only started track of four give
      1280 rows, all of that track. */
  lemma FiveTicksOfOneTrack(ticks: seq<TickInput>)
    requires |ticks| == 5
    requires forall n :: 0 <= n < 5 ==>
               && Fits([Started, Stopped, Stopped, Stopped], ticks[n].vectors, ticks[n].ids)
               && |ticks[n].vectors[0]| == 256 && !Silent(ticks[n].vectors[0])
    ensures var r := Ticks([Started, Stopped, Stopped, Stopped], ticks, []);
            |r| == 1280 && CountTrack(r, 0) == 1280
            && CountTrack(r, 1) == 0 && CountTrack(r, 2) == 0 && CountTrack(r, 3) == 0
  {
    var players := [Started, Stopped, Stopped, Stopped];
    SingleTrackSession(players, ticks, [], 0, 256);
    var r := Ticks(players, ticks, []);
    assert r[0..] == r;
    RowsOfTrackAll(r, 0);
    RowsOfTrackNone(r, 1);
    RowsOfTrackNone(r, 2);
    RowsOfTrackNone(r, 3);
  }

  // ------------------------------------------------------------ corrected guard

  /** The loop with the silence guard passing over the silent player
      (`continue`) instead of ending the tick. */
  function LoopSkippingFrom(players: seq<PlayerState>, vectors: seq<seq<Sample>>, ids: seq<string>,
                            i: nat, data: seq<Row>): (r: seq<Row>)
    requires Fits(players, vectors, ids) && i <= |players|
    ensures data <= r
    ensures forall k :: |data| <= k < |r| ==>
              var t := r[k].name.track;
              && i <= t < |players| && players[t] == Started && !Silent(vectors[t])
              && r[k].index < |vectors[t]| && r[k].value == vectors[t][r[k].index]
              && r[k].name.id == ids[t]
    ensures forall k1, k2 :: |data| <= k1 < k2 < |r| ==> r[k1].name.track <= r[k2].name.track
    decreases |players| - i
  {
    if i == |players| then data
    else if players[i] != Started || Silent(vectors[i]) then LoopSkippingFrom(players, vectors, ids, i + 1, data)
    else LoopSkippingFrom(players, vectors, ids, i + 1, data + Tag(i, ids[i], vectors[i]))
  }

  function LoopSkipping(players: seq<PlayerState>, vectors: seq<seq<Sample>>, ids: seq<string>,
                        data: seq<Row>): (r: seq<Row>)
    requires Fits(players, vectors, ids)
    ensures data <= r
    ensures forall k :: |data| <= k < |r| ==>
              var t := r[k].name.track;
              && t < |players| && players[t] == Started
              && r[k].index < |vectors[t]| && r[k].value == vectors[t][r[k].index]
              && r[k].name.id == ids[t]
    ensures forall k1, k2 :: |data| <= k1 < k2 < |r| ==> r[k1].name.track <= r[k2].name.track
  {
    LoopSkippingFrom(players, vectors, ids, 0, data)
  }

  /** With the corrected guard, a started player with signal likewise adds
      its burst in front of whatever the rest of the tick adds. */
  lemma SkippingBurstContribution(players: seq<PlayerState>, vectors: seq<seq<Sample>>,
                                  ids: seq<string>, i: nat, data: seq<Row>, t: nat)
    requires Fits(players, vectors, ids) && i <= t < |players|
    requires players[i] == Started && !Silent(vectors[i])
    ensures var data' := data + Tag(i, ids[i], vectors[i]);
            LoopSkippingFrom(players, vectors, ids, i, data)[|data|..]
            == Tag(i, ids[i], vectors[i]) + LoopSkippingFrom(players, vectors, ids, i + 1, data')[|data'|..]
    ensures var data' := data + Tag(i, ids[i], vectors[i]);
            RowsOfTrack(LoopSkippingFrom(players, vectors, ids, i, data)[|data|..], t)
            == if i == t then Tag(i, ids[i], vectors[i])
               else RowsOfTrack(LoopSkippingFrom(players, vectors, ids, i + 1, data')[|data'|..], t)
  {
    var burst := Tag(i, ids[i], vectors[i]);
    var data' := data + burst;
    var rest := LoopSkippingFrom(players, vectors, ids, i + 1, data');
    assert LoopSkippingFrom(players, vectors, ids, i, data) == rest;
    assert data' <= rest;
    SliceAfter(data, burst, rest);
    var tail := rest[|data'|..];
    assert forall k :: 0 <= k < |tail| ==> tail[k] == rest[|data'| + k];
    BurstRows(i, ids[i], vectors[i], tail, t);
  }

  lemma {:induction false} LoopSkippingFromContribution(players: seq<PlayerState>, vectors: seq<seq<Sample>>,
                                                        ids: seq<string>, i: nat, data: seq<Row>, t: nat)
    requires Fits(players, vectors, ids) && i <= t < |players|
    ensures RowsOfTrack(LoopSkippingFrom(players, vectors, ids, i, data)[|data|..], t)
            == if players[t] == Started && !Silent(vectors[t]) then Tag(t, ids[t], vectors[t]) else []
    ensures CountTrack(LoopSkippingFrom(players, vectors, ids, i, data)[|data|..], t)
            == if players[t] == Started && !Silent(vectors[t]) then |vectors[t]| else 0
    decreases |players| - i
  {
    if players[i] != Started || Silent(vectors[i]) {
      if i == t {
        var r := LoopSkippingFrom(players, vectors, ids, i, data);
        RowsOfTrackNone(r[|data|..], t);
      } else {
        LoopSkippingFromContribution(players, vectors, ids, i + 1, data, t);
      }
    } else {
      SkippingBurstContribution(players, vectors, ids, i, data, t);
      if i != t {
        LoopSkippingFromContribution(players, vectors, ids, i + 1, data + Tag(i, ids[i], vectors[i]), t);
      }
    }
  }

  /** With the corrected guard every started, non-silent player adds exactly
      its burst, whatever the other players read. */
  lemma LoopSkippingContribution(players: seq<PlayerState>, vectors: seq<seq<Sample>>, ids: seq<string>,
                                 data: seq<Row>, t: nat)
    requires Fits(players, vectors, ids) && t < |players|
    ensures data <= LoopSkipping(players, vectors, ids, data)
    ensures RowsOfTrack(LoopSkipping(players, vectors, ids, data)[|data|..], t)
            == if players[t] == Started && !Silent(vectors[t]) then Tag(t, ids[t], vectors[t]) else []
    ensures CountTrack(LoopSkipping(players, vectors, ids, data)[|data|..], t)
            == if players[t] == Started && !Silent(vectors[t]) then |vectors[t]| else 0
  {
    LoopSkippingFromContribution(players, vectors, ids, 0, data, t);
  }

  /** As written, a silent first player hides the second player's signal for
      the whole tick; the corrected loop keeps it. */
  lemma SilentTrackHidesLaterTracks()
    ensures Loop([Started, Started], [[Level(0.0)], [Level(0.5)]], ["0.25", "0.75"], []) == []
    ensures |LoopSkipping([Started, Started], [[Level(0.0)], [Level(0.5)]], ["0.25", "0.75"], [])| == 1
  {
    var vectors := [[Level(0.0)], [Level(0.5)]];
    assert Silent(vectors[0]);
    assert !Silent(vectors[1]) by {
      assert vectors[1][0] == Level(0.5);
    }
  }
}

=== FILE: session.dfy ===
/** The area pipeline of src/area.js as a sequence of events over one state,
    using the corrected silence guard (`Sampler.LoopSkipping`) and the
    corrected "c" key (`KeyDispatch.KeyDownIntended`). */
module AreaSession {
  import opened Audio
  import opened Sampler
  import opened KeyDispatch

  datatype AreaEvent =
    | Key(key: string)
    | Tick(vectors: seq<seq<Sample>>, ids: seq<string>)
    | Ended(n: nat)   // player n reached the end of its buffer

  predicate Admissible(s: AreaState, e: AreaEvent) {
    e.Tick? ==> Fits(s.players, e.vectors, e.ids)
  }

  function Step(s: AreaState, e: AreaEvent): (t: AreaState)
    requires Admissible(s, e)
    ensures |t.players| == |s.players|
  {
    match e
    case Key(key) => After(s, KeyDownIntended(s, key))
    case Tick(vectors, ids) => s.(data := LoopSkipping(s.players, vectors, ids, s.data))
    case Ended(n) => if n < |s.players| then s.(players := s.players[n := Stopped]) else s
  }

  predicate AdmissibleRun(s: AreaState, es: seq<AreaEvent>)
    decreases |es|
  {
    |es| == 0 || (Admissible(s, es[0]) && AdmissibleRun(Step(s, es[0]), es[1..]))
  }

  function Run(s: AreaState, es: seq<AreaEvent>): AreaState
    requires AdmissibleRun(s, es)
    decreases |es|
  {
    if |es| == 0 then s else Run(Step(s, es[0]), es[1..])
  }

  /** Until "c" is pressed the dataset only grows: what was there stays as a
      prefix. */
  lemma {:induction false} AppendOnlyUntilCancel(s: AreaState, es: seq<AreaEvent>)
    requires AdmissibleRun(s, es)
    requires forall i :: 0 <= i < |es| ==> es[i] != Key("c")
    ensures s.data <= Run(s, es).data
    decreases |es|
  {
    if |es| > 0 {
      var s' := Step(s, es[0]);
      if es[0].Key? {
        KeyDownKeepsData(s, es[0].key);
      }
      assert s.data <= s'.data;
      AppendOnlyUntilCancel(s', es[1..]);
    }
  }

  /** "c" empties the dataset whatever its size, and plays the cancel sound. */
  lemma CancelEmpties(s: AreaState)
    ensures Step(s, Key("c")).data == []
    ensures Step(s, Key("c")).cancel == Started
  {
  }
}
